=== FILE: README.md ===
# Business verification matcher — a Dafny model

This project models the record-matching engine of the business verification
dashboard (`app.py`). The dashboard reconciles participant datasets
("Short Term" and "New Working" working-capital lists) against a verification
roster. The engine has four parts:

- **Key derivation.** `clean_phone` canonicalises phone numbers to the
  `2547…` form. Identity numbers are stringified and stripped. Counties are
  upper-cased.
- **Roster deduplication.** Later roster rows that repeat an earlier
  (identity key, phone key) pair are dropped.
- **Two-pass matcher.** Each participant is verified by identity number
  first and by phone number second. The identity match always wins.
- **Reports.** There is a per-dataset summary, a per-county Assigned/Verified
  table sorted by county, and a verified log. The log joins the verified
  records back to the roster on both keys.

A table is a `seq` of records. A raw cell is `Option<string>`: `None` is a
missing cell, `Some(t)` is the text pandas produced for it. Membership tests
use `set<string>`. Each module follows one stage of the pipeline:

| file | module | stage |
|---|---|---|
| cells.dfy | `Cells` | raw cells |
| text.dfy | `Text` | Python's `strip`, `replace`, `startswith`, ASCII `upper`, `str` ordering |
| keys.dfy | `Keys` | `clean_phone`, identity key, county key |
| roster.dfy | `Roster` | roster keys and `drop_duplicates` |
| matcher.dfy | `Matcher` | the two matching passes |
| summary.dfy | `Summary` | dataset counts |
| county.dfy | `County` | county `groupby` table |
| verified_log.dfy | `VerifiedLog` | merge + `dropna` log |
| process.dfy | `Process` | `process` and the run over both datasets |

Two behaviours of the code that shape the reports:

- **Assigned undercounts.** A county's Assigned counts only records whose raw
  ID cell is present, so the county totals can fall short of Total Assigned.
  A county can even show Verified above Assigned. See
  `County.AssignedUndercounts` and `County.VerifiedCanExceedAssigned`.
- **The log join drops verified records.** It joins on both keys at once.
  Phone-matched records can never appear in the log. Neither can ID-matched
  records whose phone differs from the roster's. See
  `VerifiedLog.LoggedOnlyById` and `VerifiedLog.IdMatchOnOtherPhoneDropped`.

Behaviours of the code worth knowing:

- The code deletes every `+`, wherever it occurs.
- `clean_phone` is not idempotent on every input. On `"+\t5"` the first pass
  gives `"\t5"`: the tab is protected from `strip` by the `+`, and the `+` is
  removed afterwards. The second pass gives `"5"`. Idempotence is proved for
  inputs whose only whitespace is the space character
  (`Keys.CleanPhoneIdempotent`), and the counterexample is proved as
  `Keys.TabBreaksIdempotence`.
- A missing county becomes `"NAN"`, the upper-cased text of pandas' `"nan"`.
  A missing identity number becomes `"nan"`. So two missing identity numbers
  match each other by ID (`Matcher.MissingIdsMatch`), and two missing phones
  match by phone (`Matcher.MissingPhonesMatch`).
- The county key is not stripped, only upper-cased.

## Model

| member | source | states |
|---|---|---|
| Text.Strip | app.py:21 | `strip()` returns the text between a leading and a trailing run of whitespace; the result neither starts nor ends with whitespace |
| Text.Remove | app.py:21 | `replace(c, "")` is the input with every `c` deleted and every other character kept in order (the `Deleted` relation); the characters that occur are exactly the input's other characters |
| Text.RemoveAppend | app.py:21 | deleting a character from a concatenation deletes it from each part, so `replace` works piece by piece |
| Text.DeletedTwice | app.py:21 | deleting one character and then another deletes both at once, as the chained `replace` calls do |
| Text.Upper | app.py:38 | `upper()` keeps the length, turns each lower-case ASCII letter into its capital, keeps every other character, and so leaves no lower-case letter |
| Keys.Scrub | app.py:21 | the scrubbed text is the stripped input with every space and every `+` deleted and the other characters kept in order; so no space or `+` remains and only characters of the input occur |
| Keys.Canonical | app.py:22-25 | the rewrite never yields a `07…` string, nor a `7…` string of length 9 |
| Keys.CleanPhone | app.py:19-25 | `clean_phone` is total; a missing cell gives `""`; the result has no space or `+`, never starts with `07`, and a `7…` result never has length 9 |
| Keys.CleanPhoneCases | app.py:21-25 | for the scrubbed text: `07…` becomes `254` + the text after the 0, a 9-character `7…` gets `254` prepended, everything else passes through unchanged |
| Keys.CleanPhoneIdempotent | app.py:19-25 | cleaning a cleaned number changes nothing, for inputs whose only whitespace is the space |
| Keys.TabBreaksIdempotence | app.py:21 | the input `"+\t5"` cleans to `"\t5"` and then to `"5"`, so idempotence needs its precondition |
| Keys.LocalSpelling | app.py:22 | `07` + 8 digits cleans to `2547` + the digits |
| Keys.BareSpelling | app.py:23 | `7` + 8 digits cleans to `2547` + the digits |
| Keys.InternationalSpelling | app.py:24 | `2547` + 8 digits is returned unchanged |
| Keys.PlusSpelling | app.py:21-24 | `+2547` + 8 digits cleans to `2547` + the digits |
| Keys.SpacedSpelling | app.py:21 | a space between two digit groups is ignored: `a b` gets the same key as `ab` |
| Keys.MobileSpellingsAgree | app.py:19-25 | the local, bare, international and `+` spellings of one mobile number all get the same key |
| Keys.IdKey | app.py:28 | the identity key of a missing cell is `"nan"`; a present cell's key is its text stripped of surrounding whitespace |
| Keys.CountyKey | app.py:38 | a missing county becomes `"NAN"`; a present one keeps its length and each character becomes its upper-case form, with no stripping |
| Roster.Keep | app.py:29 | scanning with a set of pairs already seen yields unique pairs, exactly the input pairs not yet seen, and only input rows |
| Roster.DropDuplicates | app.py:27-29 | the deduplicated roster has no two rows with the same (ID_CLEAN, PHONE_CLEAN); it keeps the pair set, the ID-key set and the phone-key set, and only has roster rows |
| Roster.DropDuplicatesKeepsFirst | app.py:29 | deduplication equals the order-preserving subsequence of rows that are the first of their pair (`keep="first"`) |
| Process.PrepareRoster | app.py:27-29 | the prepared roster has unique pairs and the same ID-key and phone-key sets as the raw roster, and every row comes from the raw roster |
| Matcher.MatchAll | app.py:34-55 | record count and order are unchanged and the keys are derived; an ID-key hit gives verified / `ID` / "Matched by ID" whatever the phone; otherwise a phone-key hit gives verified / `Phone` / "Matched by Phone"; otherwise false / `None` / "No match on ID or Phone"; verified holds exactly when the method label is not "None" |
| Matcher.MatchIgnoresDuplicates | app.py:29-52 | matching against the deduplicated roster gives the same records as matching against the raw roster |
| Matcher.MissingIdsMatch | app.py:28-48 | a participant without an ID is matched by ID against a roster row without an ID, since both keys are `"nan"` |
| Matcher.MissingPhonesMatch | app.py:20-55 | a participant without a phone is verified against a roster row without a phone, since both keys are `""` |
| Matcher.LocalPhoneFindsInternational | app.py:22-55 | with no ID hit, a local `07…` participant phone is matched by phone against the same number written `2547…` in the roster |
| Summary.VerifiedPlusUnverified | app.py:81-84 | `Verified` + `Not Verified` = number of records |
| Summary.MethodsPartitionVerified | app.py:81-83 | over matcher output, `Matched by ID` + `Matched by Phone` = `Verified` |
| Summary.CountVerifiedPositions | app.py:81 | `VERIFIED.sum()` is the number of positions whose record is verified |
| Summary.CountLabelPositions | app.py:82-83 | `(MATCH_METHOD == label).sum()` is the number of positions whose record has that method |
| Summary.Summarize | app.py:78-85 | `Total Assigned` is the record count; `Verified`, `Not Verified`, `Matched by ID` and `Matched by Phone` are the numbers of positions whose record is verified, unverified, matched by ID, and matched by phone; `Verified` + `Not Verified` = `Total Assigned`; over matcher output, the ID and phone counts add up to `Verified` |
| County.TallyCorrect | app.py:71-74 | the folded table is strictly ascending by county; it has exactly the records' counties; every county reads the number of its records with an ID and the number verified; the totals equal the ID-present and verified counts |
| County.CountyPerformance | app.py:71-74 | one row per distinct county in ascending order; each row's Assigned is its records with a present ID and its Verified is its verified records; Verified sums to the dataset's Verified; Assigned sums to at most Total Assigned |
| County.PercentVerified | app.py:75 | the percentage exists exactly when Assigned > 0, and then percentage × Assigned = Verified × 100 |
| County.AssignedUndercounts | app.py:72-80 | one record without an ID makes the county Assigned total smaller than Total Assigned |
| County.VerifiedCanExceedAssigned | app.py:71-75 | a county whose records all lack an ID but include a verified one has Assigned 0, Verified > 0, and no percentage |
| VerifiedLog.Joined | app.py:58-66 | a verified record joins exactly the roster rows with its pair whose name, ID and phone cells are present (`JoinSound` and `JoinCovers`) |
| VerifiedLog.JoinedAtMostOne | app.py:29-63 | with unique roster pairs a record joins at most one roster row |
| VerifiedLog.Log | app.py:57-66 | every log row is a verified record with a complete roster row of the same (ID_CLEAN, PHONE_CLEAN) pair (`LogSound`); every such combination appears (`LogComplete`); with unique roster pairs each log row occurs exactly as often as there are positions whose record produces it (verified, with a complete roster row of its pair), so each verified record with a partner contributes exactly one row per position, and the log length is the number of such positions |
| VerifiedLog.JoinedCount | app.py:29-63 | with unique roster pairs a record joins exactly one roster row when it has a complete partner of its pair, and none otherwise |
| VerifiedLog.JoinedMultiset | app.py:29-66 | with unique roster pairs a verified record's merge rows hold each row it produces exactly once and no other row |
| VerifiedLog.LogAtMostVerified | app.py:58-66 | with unique roster pairs the log has at most as many rows as there are verified records |
| VerifiedLog.LoggedOnlyById | app.py:44-66 | every logged record was matched by ID; phone-matched records never reach the log |
| VerifiedLog.IdMatchOnOtherPhoneDropped | app.py:58-66 | a verified record whose phone differs from that of every roster row with its ID is absent from the log |
| Process.ProcessDataset | app.py:34-85 | for one dataset (`Describes`): each record keeps its row and carries that row's ID key, phone key and upper-cased county; it is matched by ID exactly when its ID key is in the roster; it is verified exactly when its ID key or phone key is in the roster; its VERIFIED / MATCH_METHOD / REASON is one of the matcher's three combinations; the summary counts are the numbers of verified, unverified, ID-matched and phone-matched records; the county table is ascending, has exactly the rows' upper-cased counties, and each county row holds that county's records with an ID and its verified records; the log is `LogSound` and `LogComplete` and, when roster pairs are unique, holds each row once per position whose record produces it (`LogCounts`). The totals agree (`Balanced`): ID + Phone = Verified, Verified + Not Verified = Total Assigned, the county table sums to Verified and to at most Total Assigned, only ID-matched records are logged. The log has at most Verified rows |
| Process.Run | app.py:87-91 | two reports, each `Describes` its dataset under the label "Short Term" or "New Working" against the one prepared roster, and each is `Balanced`; so every record carries its row's keys and county, the counts and the county table are those of the records, and the log holds each producing position's row once; every record's ID and phone verdicts are the same as against the raw roster's keys; each log has at most its dataset's Verified rows |

## Left out

- Streamlit page setup, upload widgets, on-screen tables and download buttons
  (app.py:7-14, 93-121) are presentation and I/O.
- Excel/CSV reading and xlsxwriter export (app.py:15-17, 102-121) are library
  calls. Inputs are modelled as already-read cells.
- pandas' number-to-text conversion (for example an ID read as a float
  becoming `"12345678.0"`) is not modelled. The text of a present cell is
  taken as given, and a missing cell is `None`.
- Text.Upper: only ASCII letters are upper-cased. Python's full Unicode case
  mapping (for example `ß` → `SS`, which changes the length) is not modelled.
- County.PercentVerified: the value is exact. The rounding to one decimal of
  line 75 is floating point. So are pandas' `inf`/`NaN` for Assigned = 0,
  which the model leaves undefined.
- Only the roster columns the engine reads are modelled: identity, phone and
  participant name. Any other roster column is carried along by the merge
  unchanged, and the name is used only by the `dropna` of line 66.
- Missing columns are not modelled. pandas raises `KeyError` when a participant
  table lacks `ID`, `PARTICIPANT PHONE` or `COUNTY` (app.py:36-38), or the
  roster lacks `Verified ID Number`, `Verified Phone Number` or
  `Name of the Participant` (app.py:26-27, 66). The row types always carry
  these columns, so that error path does not exist in the model.
- The roster column order and the participant columns other than ID, phone
  and county are not modelled, because the engine never reads them.
- The global `logs` and `performance` dictionaries (app.py:31-32, 68, 76) are
  replaced by the returned `Report` value.
- The merge of line 58 is modelled as if the participant table had no column
  named like a roster column other than the two keys. pandas' `_x`/`_y`
  renaming of clashing columns is not modelled.

=== FILE: cells.dfy ===
/** Raw spreadsheet cells. A cell is either missing (pandas NaN) or holds
    the text pandas produced when it converted the cell to a string. */
module Cells {

  datatype Option<+T> = None | Some(value: T)

  /** One cell of an input table after it has been read. */
  type Cell = Option<string>
}

=== FILE: county.dfy ===
/** The county performance table of app.py lines 71-75: the records are
    grouped by their upper-cased county, and each group reports how many of
    its records have an identity cell (Assigned) and how many are verified
    (Verified). Groups come out in ascending order of the county text, one
    row per distinct county. */
module County {
  import opened Cells
  import opened Text
  import opened Matcher
  import opened Summary

  datatype CountyRow = CountyRow(county: string, assignedCount: nat, verifiedCount: nat)

  /** What one record adds to its county's Assigned: `count` skips a
      missing raw ID cell. */
  function AssignedUnit(r: Record): nat {
    if r.row.id.Some? then 1 else 0
  }

  /** What one record adds to its county's Verified. */
  function VerifiedUnit(r: Record): nat {
    if r.verified then 1 else 0
  }

  // ---------------------------------------------------------------------
  // Reference counts, straight from the records.

  /** The records of county `c` whose raw ID cell is present. */
  function AssignedIn(recs: seq<Record>, c: string): nat {
    if |recs| == 0 then 0
    else AssignedIn(Init(recs), c) + (if Last(recs).county == c then AssignedUnit(Last(recs)) else 0)
  }

  /** The verified records of county `c`. */
  function VerifiedIn(recs: seq<Record>, c: string): nat {
    if |recs| == 0 then 0
    else VerifiedIn(Init(recs), c) + (if Last(recs).county == c then VerifiedUnit(Last(recs)) else 0)
  }

  function RecordCounties(recs: seq<Record>): set<string> {
    set r | r in recs :: r.county
  }

  // ---------------------------------------------------------------------
  // Reading a table.

  function Counties(rows: seq<CountyRow>): set<string> {
    set row | row in rows :: row.county
  }

  /** The Assigned total the table gives county `c` (0 when absent). */
  function AssignedOf(rows: seq<CountyRow>, c: string): nat {
    if |rows| == 0 then 0
    else (if rows[0].county == c then rows[0].assignedCount else 0) + AssignedOf(rows[1..], c)
  }

  /** The Verified total the table gives county `c` (0 when absent). */
  function VerifiedOf(rows: seq<CountyRow>, c: string): nat {
    if |rows| == 0 then 0
    else (if rows[0].county == c then rows[0].verifiedCount else 0) + VerifiedOf(rows[1..], c)
  }

  function SumAssigned(rows: seq<CountyRow>): nat {
    if |rows| == 0 then 0 else rows[0].assignedCount + SumAssigned(rows[1..])
  }

  function SumVerified(rows: seq<CountyRow>): nat {
    if |rows| == 0 then 0 else rows[0].verifiedCount + SumVerified(rows[1..])
  }

  /** Strictly ascending by county, so no county has two rows. */
  predicate Ascending(rows: seq<CountyRow>) {
    forall i, j :: 0 <= i < j < |rows| ==> Less(rows[i].county, rows[j].county)
  }

  // ---------------------------------------------------------------------
  // Building the table.

  /** Folds one record into an ascending table: its county's row is bumped,
      or a new row is inserted at its place. */
  function Add(rows: seq<CountyRow>, r: Record): seq<CountyRow> {
    var single := CountyRow(r.county, AssignedUnit(r), VerifiedUnit(r));
    if |rows| == 0 then [single]
    else if rows[0].county == r.county then
      [CountyRow(r.county, rows[0].assignedCount + AssignedUnit(r), rows[0].verifiedCount + VerifiedUnit(r))]
      + rows[1..]
    else if Less(r.county, rows[0].county) then [single] + rows
    else [rows[0]] + Add(rows[1..], r)
  }

  lemma {:induction false} AddCounties(rows: seq<CountyRow>, r: Record)
    ensures Counties(Add(rows, r)) == Counties(rows) + {r.county}
  {
    if |rows| > 0 {
      assert rows == [rows[0]] + rows[1..];
      if rows[0].county != r.county && !Less(r.county, rows[0].county) {
        AddCounties(rows[1..], r);
        CountiesCons(rows[0], Add(rows[1..], r));
      }
    }
  }

  lemma CountiesCons(row: CountyRow, rows: seq<CountyRow>)
    ensures Counties([row] + rows) == {row.county} + Counties(rows)
  {
    assert forall x :: x in [row] + rows <==> x == row || x in rows;
  }

  lemma {:induction false} AddReads(rows: seq<CountyRow>, r: Record, c: string)
    ensures AssignedOf(Add(rows, r), c) == AssignedOf(rows, c) + (if c == r.county then AssignedUnit(r) else 0)
    ensures VerifiedOf(Add(rows, r), c) == VerifiedOf(rows, c) + (if c == r.county then VerifiedUnit(r) else 0)
  {
    var out := Add(rows, r);
    if |rows| == 0 {
      assert out[1..] == [];
    } else if rows[0].county == r.county {
      assert out[1..] == rows[1..];
    } else if Less(r.county, rows[0].county) {
      assert out[1..] == rows;
    } else {
      assert out[1..] == Add(rows[1..], r);
      AddReads(rows[1..], r, c);
    }
  }

  lemma {:induction false} AddSums(rows: seq<CountyRow>, r: Record)
    ensures SumAssigned(Add(rows, r)) == SumAssigned(rows) + AssignedUnit(r)
    ensures SumVerified(Add(rows, r)) == SumVerified(rows) + VerifiedUnit(r)
  {
    var out := Add(rows, r);
    if |rows| == 0 {
      assert out[1..] == [];
    } else if rows[0].county == r.county {
      assert out[1..] == rows[1..];
    } else if Less(r.county, rows[0].county) {
      assert out[1..] == rows;
    } else {
      assert out[1..] == Add(rows[1..], r);
      AddSums(rows[1..], r);
    }
  }

  /** Every county of `rows` is above `lo`. */
  predicate Above(lo: string, rows: seq<CountyRow>) {
    forall i :: 0 <= i < |rows| ==> Less(lo, rows[i].county)
  }

  lemma AboveFromCounties(lo: string, rows: seq<CountyRow>)
    requires forall c :: c in Counties(rows) ==> Less(lo, c)
    ensures Above(lo, rows)
  {
    forall i | 0 <= i < |rows| ensures Less(lo, rows[i].county) {
      assert rows[i].county in Counties(rows);
    }
  }

  lemma CountiesAbove(lo: string, rows: seq<CountyRow>)
    requires Above(lo, rows)
    ensures forall c :: c in Counties(rows) ==> Less(lo, c)
  {
    forall c | c in Counties(rows) ensures Less(lo, c) {
      var row :| row in rows && row.county == c;
      var k :| 0 <= k < |rows| && rows[k] == row;
    }
  }

  lemma AscendingCons(row: CountyRow, rows: seq<CountyRow>)
    requires Ascending(rows) && Above(row.county, rows)
    ensures Ascending([row] + rows)
  {
    var out := [row] + rows;
    forall i, j | 0 <= i < j < |out| ensures Less(out[i].county, out[j].county) {
      assert out[j] == rows[j - 1];
      if i > 0 {
        assert out[i] == rows[i - 1];
      }
    }
  }

  lemma {:induction false} AddAscending(rows: seq<CountyRow>, r: Record)
    requires Ascending(rows)
    ensures Ascending(Add(rows, r))
  {
    if |rows| == 0 {
    } else if rows[0].county == r.county {
      var row := CountyRow(r.county, rows[0].assignedCount + AssignedUnit(r), rows[0].verifiedCount + VerifiedUnit(r));
      assert Above(row.county, rows[1..]) by {
        forall i | 0 <= i < |rows[1..]| ensures Less(row.county, rows[1..][i].county) {
          assert rows[1..][i] == rows[i + 1];
        }
      }
      assert Ascending(rows[1..]) by {
        forall i, j | 0 <= i < j < |rows[1..]| ensures Less(rows[1..][i].county, rows[1..][j].county) {
          assert rows[1..][i] == rows[i + 1] && rows[1..][j] == rows[j + 1];
        }
      }
      AscendingCons(row, rows[1..]);
    } else if Less(r.county, rows[0].county) {
      var single := CountyRow(r.county, AssignedUnit(r), VerifiedUnit(r));
      assert Above(r.county, rows) by {
        forall i | 0 <= i < |rows| ensures Less(r.county, rows[i].county) {
          if i > 0 {
            LessTransitive(r.county, rows[0].county, rows[i].county);
          }
        }
      }
      AscendingCons(single, rows);
    } else {
      LessTotal(r.county, rows[0].county);
      var rest := Add(rows[1..], r);
      assert Ascending(rows[1..]) by {
        forall i, j | 0 <= i < j < |rows[1..]| ensures Less(rows[1..][i].county, rows[1..][j].county) {
          assert rows[1..][i] == rows[i + 1] && rows[1..][j] == rows[j + 1];
        }
      }
      AddAscending(rows[1..], r);
      assert Above(rows[0].county, rows[1..]) by {
        forall i | 0 <= i < |rows[1..]| ensures Less(rows[0].county, rows[1..][i].county) {
          assert rows[1..][i] == rows[i + 1];
        }
      }
      CountiesAbove(rows[0].county, rows[1..]);
      AddCounties(rows[1..], r);
      AboveFromCounties(rows[0].county, rest);
      AscendingCons(rows[0], rest);
    }
  }

  /** The table after folding in every record, one at a time. */
  function Tally(recs: seq<Record>): seq<CountyRow> {
    if |recs| == 0 then [] else Add(Tally(Init(recs)), Last(recs))
  }

  /** Folding keeps the table ascending, with exactly the records'
      counties, and every reading and total agrees with the reference
      counts. */
  lemma {:induction false} TallyCorrect(recs: seq<Record>)
    ensures Ascending(Tally(recs))
    ensures Counties(Tally(recs)) == RecordCounties(recs)
    ensures forall c :: AssignedOf(Tally(recs), c) == AssignedIn(recs, c)
                     && VerifiedOf(Tally(recs), c) == VerifiedIn(recs, c)
    ensures SumAssigned(Tally(recs)) == CountIdPresent(recs)
    ensures SumVerified(Tally(recs)) == CountVerified(recs)
  {
    TallyAscending(recs);
    TallyCounties(recs);
    forall c | true
      ensures AssignedOf(Tally(recs), c) == AssignedIn(recs, c)
           && VerifiedOf(Tally(recs), c) == VerifiedIn(recs, c)
    {
      TallyReads(recs, c);
    }
    TallySums(recs);
  }

  lemma {:induction false} TallyAscending(recs: seq<Record>)
    ensures Ascending(Tally(recs))
  {
    if |recs| > 0 {
      TallyAscending(Init(recs));
      AddAscending(Tally(Init(recs)), Last(recs));
    }
  }

  lemma {:induction false} TallyCounties(recs: seq<Record>)
    ensures Counties(Tally(recs)) == RecordCounties(recs)
  {
    if |recs| > 0 {
      TallyCounties(Init(recs));
      AddCounties(Tally(Init(recs)), Last(recs));
      RecordCountiesStep(recs);
    }
  }

  lemma RecordCountiesStep(recs: seq<Record>)
    requires |recs| > 0
    ensures RecordCounties(recs) == RecordCounties(Init(recs)) + {Last(recs).county}
  {
    assert recs == Init(recs) + [Last(recs)];
    assert forall x :: x in recs <==> x in Init(recs) || x == Last(recs);
  }

  lemma {:induction false} TallyReads(recs: seq<Record>, c: string)
    ensures AssignedOf(Tally(recs), c) == AssignedIn(recs, c)
    ensures VerifiedOf(Tally(recs), c) == VerifiedIn(recs, c)
  {
    if |recs| > 0 {
      TallyReads(Init(recs), c);
      AddReads(Tally(Init(recs)), Last(recs), c);
    }
  }

  lemma {:induction false} TallySums(recs: seq<Record>)
    ensures SumAssigned(Tally(recs)) == CountIdPresent(recs)
    ensures SumVerified(Tally(recs)) == CountVerified(recs)
  {
    if |recs| > 0 {
      TallySums(Init(recs));
      AddSums(Tally(Init(recs)), Last(recs));
    }
  }

  /** In an ascending table, reading county `c` returns the row of `c`. */
  lemma {:induction false} ReadOwnRow(rows: seq<CountyRow>, i: nat)
    requires Ascending(rows) && i < |rows|
    ensures AssignedOf(rows, rows[i].county) == rows[i].assignedCount
    ensures VerifiedOf(rows, rows[i].county) == rows[i].verifiedCount
  {
    var c := rows[i].county;
    if i == 0 {
      forall j | 0 <= j < |rows[1..]| ensures rows[1..][j].county != c {
        assert rows[1..][j] == rows[j + 1];
        LessIrreflexive(c);
        LessAsymmetric(c, rows[j + 1].county);
      }
      AbsentReadsZero(rows[1..], c);
    } else {
      LessIrreflexive(c);
      assert rows[1..][i - 1] == rows[i];
      ReadOwnRow(rows[1..], i - 1);
    }
  }

  /** A county without a row reads as zero. */
  lemma {:induction false} AbsentReadsZero(rows: seq<CountyRow>, c: string)
    requires forall j :: 0 <= j < |rows| ==> rows[j].county != c
    ensures AssignedOf(rows, c) == 0 && VerifiedOf(rows, c) == 0
  {
    if |rows| > 0 {
      AbsentReadsZero(rows[1..], c);
    }
  }

  /** The per-county table of lines 71-74. */
  function CountyPerformance(recs: seq<Record>): (rows: seq<CountyRow>)
    ensures Ascending(rows)
    ensures Counties(rows) == RecordCounties(recs)
    ensures forall i :: 0 <= i < |rows| ==>
      rows[i].assignedCount == AssignedIn(recs, rows[i].county)
      && rows[i].verifiedCount == VerifiedIn(recs, rows[i].county)
    ensures SumVerified(rows) == CountVerified(recs)
    ensures SumAssigned(rows) == CountIdPresent(recs) <= |recs|
  {
    var rows := Tally(recs);
    TallyCorrect(recs);
    ReadOwnRows(rows);
    IdPresentAtMostAll(recs);
    rows
  }

  lemma ReadOwnRows(rows: seq<CountyRow>)
    requires Ascending(rows)
    ensures forall i :: 0 <= i < |rows| ==>
      AssignedOf(rows, rows[i].county) == rows[i].assignedCount
      && VerifiedOf(rows, rows[i].county) == rows[i].verifiedCount
  {
    forall i | 0 <= i < |rows| {
      ReadOwnRow(rows, i);
    }
  }

  /** Line 75 without the rounding: Verified as a percentage of Assigned,
      undefined when Assigned is 0 (pandas yields inf or NaN there). */
  function PercentVerified(row: CountyRow): (p: Option<real>)
    ensures p.Some? <==> row.assignedCount > 0
    ensures p.Some? ==> p.value * (row.assignedCount as real) == (row.verifiedCount as real) * 100.0
  {
    if row.assignedCount > 0 then Some((row.verifiedCount as real) * 100.0 / (row.assignedCount as real)) else None
  }

  lemma {:induction false} MissingIdUncounted(recs: seq<Record>, i: nat)
    requires i < |recs| && recs[i].row.id.None?
    ensures CountIdPresent(recs) < |recs|
  {
    if i == |recs| - 1 {
      IdPresentAtMostAll(Init(recs));
    } else {
      assert Init(recs)[i] == recs[i];
      MissingIdUncounted(Init(recs), i);
    }
  }

  /** Assigned counts only records with an identity number, so one record
      without it makes the counties' Assigned total fall short of the
      dataset's Total Assigned. */
  lemma AssignedUndercounts(recs: seq<Record>, i: nat)
    requires i < |recs| && recs[i].row.id.None?
    ensures SumAssigned(CountyPerformance(recs)) < |recs|
  {
    MissingIdUncounted(recs, i);
  }

  lemma {:induction false} NoIdsNoAssigned(recs: seq<Record>, c: string)
    requires forall i :: 0 <= i < |recs| && recs[i].county == c ==> recs[i].row.id.None?
    ensures AssignedIn(recs, c) == 0
  {
    if |recs| > 0 {
      assert forall i :: 0 <= i < |recs| - 1 ==> Init(recs)[i] == recs[i];
      NoIdsNoAssigned(Init(recs), c);
    }
  }

  lemma {:induction false} VerifiedCounted(recs: seq<Record>, c: string, i: nat)
    requires i < |recs| && recs[i].county == c && recs[i].verified
    ensures VerifiedIn(recs, c) > 0
  {
    if i < |recs| - 1 {
      assert Init(recs)[i] == recs[i];
      VerifiedCounted(Init(recs), c, i);
    }
  }

  /** A county whose records all lack an identity number but include a
      verified one (by phone, or by the "nan" identity key) gets a row
      with Verified above Assigned = 0, and no percentage. */
  lemma VerifiedCanExceedAssigned(recs: seq<Record>, c: string, i: nat)
    requires i < |recs| && recs[i].county == c && recs[i].verified
    requires forall k :: 0 <= k < |recs| && recs[k].county == c ==> recs[k].row.id.None?
    ensures exists k :: 0 <= k < |CountyPerformance(recs)|
                        && CountyPerformance(recs)[k].county == c
                        && CountyPerformance(recs)[k].assignedCount == 0
                        && CountyPerformance(recs)[k].verifiedCount > 0
                        && PercentVerified(CountyPerformance(recs)[k]).None?
  {
    var rows := CountyPerformance(recs);
    assert recs[i] in recs;
    assert c in Counties(rows);
    var row :| row in rows && row.county == c;
    var k :| 0 <= k < |rows| && rows[k] == row;
    NoIdsNoAssigned(recs, c);
    VerifiedCounted(recs, c, i);
  }
}

=== FILE: keys.dfy ===
/** Derivation of the join keys (app.py lines 19-28 and 36-38): the phone
    canonicaliser `clean_phone`, the identity-number key and the county
    grouping key. */
module Keys {
  import opened Cells
  import opened Text

  /** The sentinel pandas writes when a missing cell is converted with
      `astype(str)`. */
  const MissingText: string := "nan"

  /** Line 21: trim, then delete every space and every `+`. */
  function Scrub(raw: string): (q: string)
    ensures Deleted(Strip(raw), {' ', '+'}, q)
    ensures ' ' !in q && '+' !in q
    ensures forall x :: x in q ==> x in raw
  {
    var m := Remove(Strip(raw), ' ');
    var q := Remove(m, '+');
    DeletedTwice(Strip(raw), ' ', m, '+', q);
    assert forall x :: x in q ==> x in raw by {
      forall x | x in q ensures x in raw {
        StripKeeps(raw, x);
      }
    }
    q
  }

  /** Lines 22-25 applied to scrubbed text. The `254…`/length-12 branch of
      line 24 returns its input unchanged, exactly as the fall-through of
      line 25 does, so it needs no separate case. */
  function Canonical(q: string): (r: string)
    ensures !StartsWith(r, "07")
    ensures StartsWith(r, "7") ==> |r| != 9
    ensures forall x :: x in r ==> x in q || x in "254"
  {
    if StartsWith(q, "07") then Prefix254(q[1..]); "254" + q[1..]
    else if StartsWith(q, "7") && |q| == 9 then Prefix254(q); "254" + q
    else q
  }

  /** `clean_phone` (lines 19-25). */
  function CleanPhone(p: Cell): (r: string)
    ensures p.None? ==> r == ""
    ensures ' ' !in r && '+' !in r
    ensures !StartsWith(r, "07")
    ensures StartsWith(r, "7") ==> |r| != 9
  {
    match p
    case None => ""
    case Some(raw) => Canonical(Scrub(raw))
  }

  /** A string carrying the country code starts neither with "07" nor
      with "7". */
  lemma Prefix254(x: string)
    ensures StartsWith("254" + x, "254")
    ensures !StartsWith("254" + x, "07") && !StartsWith("254" + x, "7")
  {
    assert ("254" + x)[..3] == "254";
    assert ("254" + x)[0] == '2';
  }

  /** The rewrite table of lines 22-25 in terms of the scrubbed text: a
      local `07…` number loses its 0 to the country code, a bare 9-digit
      `7…` number gets the country code, anything else is kept as is. */
  lemma CleanPhoneCases(raw: string)
    ensures var q := Scrub(raw);
            var r := CleanPhone(Some(raw));
            && (StartsWith(q, "07") ==> r == "254" + q[1..])
            && (StartsWith(q, "7") && |q| == 9 ==> r == "254" + q)
            && (!StartsWith(q, "07") && !(StartsWith(q, "7") && |q| == 9) ==> r == q)
  {
    CanonicalCases(Scrub(raw));
  }

  lemma CanonicalCases(q: string)
    ensures StartsWith(q, "07") ==> Canonical(q) == "254" + q[1..]
    ensures StartsWith(q, "7") && |q| == 9 ==> Canonical(q) == "254" + q
    ensures !StartsWith(q, "07") && !(StartsWith(q, "7") && |q| == 9) ==> Canonical(q) == q
  {
    if StartsWith(q, "7") {
      assert q[0] == '7';
    }
  }

  /** Text that starts with neither digit of a local prefix is kept. */
  lemma CanonicalOther(q: string)
    requires |q| > 0 && q[0] != '0' && q[0] != '7'
    ensures Canonical(q) == q
  {
    assert |q| >= 2 ==> q[..2][0] == q[0];
    assert q[..1][0] == q[0];
  }

  /** The identity key, `astype(str).str.strip()` (lines 28 and 37): a
      missing cell becomes the text "nan". */
  function IdKey(c: Cell): (k: string)
    ensures c.None? ==> k == MissingText
    ensures c.Some? ==> k == Strip(c.value)
    ensures |k| > 0 ==> !IsSpace(k[0]) && !IsSpace(k[|k| - 1])
  {
    match c
    case None => MissingText
    case Some(s) => Strip(s)
  }

  /** The county grouping key, `astype(str).str.upper()` (line 38). It is
      not stripped: " Nairobi" and "NAIROBI" are different counties. */
  function CountyKey(c: Cell): (k: string)
    ensures c.None? ==> k == "NAN"
    ensures c.Some? ==> |k| == |c.value|
    ensures c.Some? ==> forall i :: 0 <= i < |k| ==> k[i] == UpperChar(c.value[i])
    ensures forall i :: 0 <= i < |k| ==> !IsLower(k[i])
  {
    match c
    case None => Upper(MissingText)
    case Some(s) => Upper(s)
  }

  /** Whitespace other than the space character never occurs in `s`. */
  predicate OnlySpaceBlanks(s: string) {
    forall i :: 0 <= i < |s| ==> IsSpace(s[i]) ==> s[i] == ' '
  }

  lemma ScrubNoSpace(raw: string)
    requires OnlySpaceBlanks(raw)
    ensures NoSpace(Scrub(raw))
  {
    var q := Scrub(raw);
    forall i | 0 <= i < |q| ensures !IsSpace(q[i]) {
      assert q[i] in raw;
    }
  }

  /** The cleaning of line 21 is the identity on its own output. */
  lemma ScrubFixed(q: string)
    requires NoSpace(q) && ' ' !in q && '+' !in q
    ensures Scrub(q) == q
  {
    StripNoSpace(q);
    RemoveAbsent(q, ' ');
    RemoveAbsent(q, '+');
  }

  lemma NoSpace254(x: string)
    requires NoSpace(x)
    ensures NoSpace("254" + x)
  {
    var y := "254" + x;
    forall i | 0 <= i < |y| ensures !IsSpace(y[i]) {
      if i >= 3 { assert y[i] == x[i - 3]; }
    }
  }

  /** Whitespace-free scrubbed text stays whitespace-free once cleaned. */
  lemma CleanPhoneNoSpace(raw: string)
    requires NoSpace(Scrub(raw))
    ensures NoSpace(CleanPhone(Some(raw)))
  {
    var q := Scrub(raw);
    if StartsWith(q, "07") {
      assert NoSpace(q[1..]);
      NoSpace254(q[1..]);
    } else if StartsWith(q, "7") && |q| == 9 {
      NoSpace254(q);
    }
  }

  /** `clean_phone` is idempotent on every input whose only whitespace is
      the space character. */
  lemma CleanPhoneIdempotent(p: Cell)
    requires p.Some? ==> OnlySpaceBlanks(p.value)
    ensures CleanPhone(Some(CleanPhone(p))) == CleanPhone(p)
  {
    var r := CleanPhone(p);
    if p.Some? {
      ScrubNoSpace(p.value);
      CleanPhoneNoSpace(p.value);
    }
    ScrubFixed(r);
  }

  /** The idempotence above needs its precondition: a tab hidden behind a
      `+` survives the strip of the first pass and is removed by the strip
      of the second. */
  lemma TabBreaksIdempotence()
    ensures CleanPhone(Some("+\t5")) == "\t5"
    ensures CleanPhone(Some(CleanPhone(Some("+\t5")))) == "5"
  {
    ScrubTabbedPlus();
    ScrubTabbed();
    CanonicalOther("\t5");
    CanonicalOther("5");
  }

  lemma ScrubTabbedPlus()
    ensures Scrub("+\t5") == "\t5"
  {
    var s := "+\t5";
    assert !IsSpace(s[0]) && !IsSpace(s[2]);
    StripFramed(s);
    RemoveAbsent(s, ' ');
    RemoveHead('+', "\t5");
    RemoveAbsent("\t5", '+');
    assert s == ['+'] + "\t5";
  }

  lemma ScrubTabbed()
    ensures Scrub("\t5") == "5"
  {
    var s := "\t5";
    assert IsSpace(s[0]) && !IsSpace(s[1]);
    assert SkipSpace(s, 0) == 1;
    assert BackSpace(s, 1, 2) == 2;
    assert Strip(s) == "5";
    RemoveAbsent("5", ' ');
    RemoveAbsent("5", '+');
  }

  /** Digits-only text: no whitespace, no space, no plus. */
  predicate Plain(d: string) {
    NoSpace(d) && ' ' !in d && '+' !in d
  }

  lemma PlainConcat(a: string, b: string)
    requires Plain(a) && Plain(b)
    ensures Plain(a + b)
  {
    var c := a + b;
    forall i | 0 <= i < |c| ensures !IsSpace(c[i]) {
      if i >= |a| { assert c[i] == b[i - |a|]; }
    }
  }

  /** Text that needs no scrubbing goes straight to lines 22-25. */
  lemma CleanPlain(q: string)
    requires Plain(q)
    ensures CleanPhone(Some(q)) == Canonical(q)
  {
    ScrubFixed(q);
  }

  lemma PlainPrefixed(prefix: string, d: string)
    requires prefix in {"07", "7", "2547"} && Plain(d)
    ensures Plain(prefix + d)
  {
    assert Plain(prefix);
    PlainConcat(prefix, d);
  }

  lemma CanonicalLocal(d: string)
    ensures Canonical("07" + d) == "2547" + d
  {
    var q := "07" + d;
    assert q[..2] == "07";
    assert q[1..] == "7" + d;
  }

  lemma CanonicalBare(d: string)
    requires |d| == 8
    ensures Canonical("7" + d) == "2547" + d
  {
    var q := "7" + d;
    assert q[..1] == "7";
    assert q[0] == '7';
  }

  lemma CanonicalInternational(d: string)
    ensures Canonical("2547" + d) == "2547" + d
  {
    assert ("2547" + d)[0] == '2';
  }

  lemma RemoveHead(c: char, q: string)
    ensures Remove([c] + q, c) == Remove(q, c)
  {
    assert ([c] + q)[1..] == q;
  }

  lemma NoSpacePlus(q: string)
    requires NoSpace(q)
    ensures NoSpace(['+'] + q)
  {
    var plus := ['+'] + q;
    forall i | 0 <= i < |plus| ensures !IsSpace(plus[i]) {
      if i > 0 { assert plus[i] == q[i - 1]; }
    }
  }

  /** Without whitespace only the plus signs are scrubbed. */
  lemma ScrubNoBlank(raw: string)
    requires NoSpace(raw)
    ensures Scrub(raw) == Remove(raw, '+')
  {
    StripNoSpace(raw);
    NoSpaceNoBlank(raw);
    RemoveAbsent(raw, ' ');
  }

  /** A leading `+` is scrubbed away. */
  lemma ScrubPlus(q: string)
    requires Plain(q)
    ensures Scrub(['+'] + q) == q
  {
    NoSpacePlus(q);
    ScrubNoBlank(['+'] + q);
    RemoveHead('+', q);
    RemoveAbsent(q, '+');
  }

  lemma LocalSpelling(d: string)
    requires Plain(d)
    ensures CleanPhone(Some("07" + d)) == "2547" + d
  {
    PlainPrefixed("07", d);
    CleanPlain("07" + d);
    CanonicalLocal(d);
  }

  lemma BareSpelling(d: string)
    requires |d| == 8 && Plain(d)
    ensures CleanPhone(Some("7" + d)) == "2547" + d
  {
    PlainPrefixed("7", d);
    CleanPlain("7" + d);
    CanonicalBare(d);
  }

  lemma InternationalSpelling(d: string)
    requires Plain(d)
    ensures CleanPhone(Some("2547" + d)) == "2547" + d
  {
    PlainPrefixed("2547", d);
    CleanPlain("2547" + d);
    CanonicalInternational(d);
  }

  lemma PlusSpelling(d: string)
    requires Plain(d)
    ensures CleanPhone(Some("+2547" + d)) == "2547" + d
  {
    PlainPrefixed("2547", d);
    ScrubPlus("2547" + d);
    assert "+2547" + d == ['+'] + ("2547" + d);
    CanonicalInternational(d);
  }

  /** A space between two digit groups is ignored: `"0712 345678"` gets
      the same key as `"0712345678"`. */
  lemma SpacedSpelling(a: string, b: string)
    requires |a| > 0 && |b| > 0 && Plain(a) && Plain(b)
    ensures CleanPhone(Some(a + " " + b)) == CleanPhone(Some(a + b))
  {
    ScrubSpaced(a, b);
    PlainConcat(a, b);
    CleanPlain(a + b);
  }

  lemma ScrubSpaced(a: string, b: string)
    requires |a| > 0 && |b| > 0 && Plain(a) && Plain(b)
    ensures Scrub(a + " " + b) == a + b
  {
    var s := a + " " + b;
    assert s[0] == a[0] && s[|s| - 1] == b[|b| - 1];
    StripFramed(s);
    RemoveSpace(a, b);
    PlainConcat(a, b);
    RemoveAbsent(a + b, '+');
  }

  lemma RemoveSpace(a: string, b: string)
    requires ' ' !in a && ' ' !in b
    ensures Remove(a + " " + b, ' ') == a + b
  {
    assert a + " " + b == a + [' '] + b;
    RemoveBetween(a, ' ', b);
  }

  /** The ways a Kenyan mobile number is written, local `07…`, bare `7…`,
      international `2547…` and `+2547…`, all yield the same key. */
  lemma MobileSpellingsAgree(d: string)
    requires |d| == 8 && Plain(d)
    ensures CleanPhone(Some("07" + d)) == "2547" + d
    ensures CleanPhone(Some("7" + d)) == "2547" + d
    ensures CleanPhone(Some("2547" + d)) == "2547" + d
    ensures CleanPhone(Some("+2547" + d)) == "2547" + d
  {
    LocalSpelling(d);
    BareSpelling(d);
    InternationalSpelling(d);
    PlusSpelling(d);
  }
}

=== FILE: matcher.dfy ===
/** The two-pass matcher inside `process` (app.py lines 34-55): every
    participant record starts unverified, pass 1 marks the records whose
    identity key occurs in the roster, pass 2 marks the still unverified
    records whose phone key occurs in the roster. */
module Matcher {
  import opened Cells
  import opened Keys
  import opened Roster

  /** One row of a participant dataset, restricted to the columns the
      engine reads. */
  datatype ParticipantRow = ParticipantRow(id: Cell, phone: Cell, county: Cell)

  /** The MATCH_METHOD column. */
  datatype MatchMethod = NoMatch | ById | ByPhone {
    /** The text the column holds. */
    function Label(): string {
      match this
      case NoMatch => "None"
      case ById => "ID"
      case ByPhone => "Phone"
    }
  }

  const NoMatchReason: string := "No match on ID or Phone"
  const IdReason: string := "Matched by ID"
  const PhoneReason: string := "Matched by Phone"

  /** A participant row with the columns `process` adds to it. */
  datatype Record = Record(row: ParticipantRow, idKey: string, phoneKey: string, county: string,
                           verified: bool, matchMethod: MatchMethod, reason: string) {
    function Pair(): (string, string) {
      (idKey, phoneKey)
    }
  }

  /** Lines 36-42: derived keys and the default verdict. */
  function Prepare(row: ParticipantRow): Record {
    Record(row, IdKey(row.id), CleanPhone(row.phone), CountyKey(row.county),
           false, NoMatch, NoMatchReason)
  }

  /** Lines 44-48. */
  function MarkById(r: Record, ids: set<string>): Record {
    if r.idKey in ids then r.(verified := true, matchMethod := ById, reason := IdReason) else r
  }

  /** Lines 50-55: only records pass 1 left unverified are considered. */
  function MarkByPhone(r: Record, phones: set<string>): Record {
    if !r.verified && r.phoneKey in phones then
      r.(verified := true, matchMethod := ByPhone, reason := PhoneReason)
    else r
  }

  /** The three VERIFIED / MATCH_METHOD / REASON combinations the matcher
      can produce. */
  predicate Consistent(r: Record) {
    || (!r.verified && r.matchMethod == NoMatch && r.reason == NoMatchReason)
    || (r.verified && r.matchMethod == ById && r.reason == IdReason)
    || (r.verified && r.matchMethod == ByPhone && r.reason == PhoneReason)
  }

  /** Lines 35-55: the records of one dataset after both passes, matched
      against the deduplicated roster. */
  function MatchAll(rows: seq<ParticipantRow>, roster: seq<Entry>): (recs: seq<Record>)
    ensures |recs| == |rows|
    ensures forall i :: 0 <= i < |rows| ==>
      && recs[i].row == rows[i]
      && recs[i].idKey == IdKey(rows[i].id)
      && recs[i].phoneKey == CleanPhone(rows[i].phone)
      && recs[i].county == CountyKey(rows[i].county)
    // ID wins, whatever the phone key.
    ensures forall i :: 0 <= i < |recs| && recs[i].idKey in IdKeys(roster) ==>
      recs[i].verified && recs[i].matchMethod == ById && recs[i].reason == IdReason
    // Phone is the fallback.
    ensures forall i :: 0 <= i < |recs| && recs[i].idKey !in IdKeys(roster)
                        && recs[i].phoneKey in PhoneKeys(roster) ==>
      recs[i].verified && recs[i].matchMethod == ByPhone && recs[i].reason == PhoneReason
    // Neither key found: the defaults of lines 40-42 survive.
    ensures forall i :: 0 <= i < |recs| && recs[i].idKey !in IdKeys(roster)
                        && recs[i].phoneKey !in PhoneKeys(roster) ==>
      !recs[i].verified && recs[i].matchMethod == NoMatch && recs[i].reason == NoMatchReason
    ensures forall i :: 0 <= i < |recs| ==> Consistent(recs[i])
    ensures forall i :: 0 <= i < |recs| ==> (recs[i].verified <==> recs[i].matchMethod.Label() != "None")
  {
    var ids := IdKeys(roster);
    var phones := PhoneKeys(roster);
    var prepared := seq(|rows|, i requires 0 <= i < |rows| => Prepare(rows[i]));
    var pass1 := seq(|prepared|, i requires 0 <= i < |prepared| => MarkById(prepared[i], ids));
    seq(|pass1|, i requires 0 <= i < |pass1| => MarkByPhone(pass1[i], phones))
  }

  /** Matching depends on the roster only through its two key sets, so the
      deduplication of line 29 does not change any verdict. */
  lemma MatchIgnoresDuplicates(rows: seq<ParticipantRow>, es: seq<Entry>)
    ensures MatchAll(rows, DropDuplicates(es)) == MatchAll(rows, es)
  {
  }

  /** Missing keys get no special treatment: a participant without an
      identity number is matched by ID against a roster row without one,
      both keys being the text "nan". */
  lemma MissingIdsMatch(rows: seq<ParticipantRow>, roster: seq<RosterRow>, i: nat, j: nat)
    requires i < |rows| && j < |roster|
    requires rows[i].id.None? && roster[j].verifiedId.None?
    ensures MatchAll(rows, DeriveAll(roster))[i].matchMethod == ById
  {
    assert DeriveAll(roster)[j].idKey == MissingText;
  }

  /** Likewise a participant without a phone number, not matched by ID,
      is matched by phone against a roster row without one, both keys
      being the empty string. */
  lemma MissingPhonesMatch(rows: seq<ParticipantRow>, roster: seq<RosterRow>, i: nat, j: nat)
    requires i < |rows| && j < |roster|
    requires rows[i].phone.None? && roster[j].verifiedPhone.None?
    ensures MatchAll(rows, DeriveAll(roster))[i].verified
  {
    assert DeriveAll(roster)[j].phoneKey == "";
  }

  /** A participant phone written locally (`07…`) finds a roster phone
      written internationally (`2547…`) when the identity number does not
      match: the phone fallback after canonicalisation. */
  lemma LocalPhoneFindsInternational(rows: seq<ParticipantRow>, roster: seq<RosterRow>, i: nat, j: nat,
                                     d: string)
    requires i < |rows| && j < |roster|
    requires |d| == 8 && Plain(d)
    requires rows[i].phone == Some("07" + d) && roster[j].verifiedPhone == Some("2547" + d)
    requires IdKey(rows[i].id) !in IdKeys(DeriveAll(roster))
    ensures MatchAll(rows, DeriveAll(roster))[i].matchMethod == ByPhone
  {
    MobileSpellingsAgree(d);
    assert DeriveAll(roster)[j].phoneKey == "2547" + d;
  }
}

=== FILE: process.dfy ===
/** The whole engine for one run (app.py lines 27-91): the roster is keyed
    and deduplicated once, then `process` matches each participant dataset
    against it and reports on the result. */
module Process {
  import opened Cells
  import opened Keys
  import opened Roster
  import opened Matcher
  import opened Summary
  import opened County
  import opened VerifiedLog

  /** Lines 27-29. */
  function PrepareRoster(rows: seq<RosterRow>): (roster: seq<Entry>)
    ensures Unique(roster)
    ensures IdKeys(roster) == IdKeys(DeriveAll(rows))
    ensures PhoneKeys(roster) == PhoneKeys(DeriveAll(rows))
    ensures forall e :: e in roster ==> e.row in rows
  {
    var all := DeriveAll(rows);
    assert forall e :: e in all ==> e.row in rows by {
      forall e | e in all ensures e.row in rows {
        var i :| 0 <= i < |all| && all[i] == e;
      }
    }
    DropDuplicates(all)
  }

  /** What `process` leaves behind for one dataset: its summary (the return
      value), its county table (`performance[label]`), its verified log
      (`logs[label]`) and the tagged records. */
  datatype Report = Report(summary: DatasetSummary, counties: seq<CountyRow>, log: seq<LogRow>,
                           records: seq<Record>)

  /** Each record's verdict follows the ID-then-phone policy against the
      given key sets, its VERIFIED / MATCH_METHOD / REASON is one of the
      matcher's three combinations, and the records keep the rows in
      order. */
  predicate Verdicts(rows: seq<ParticipantRow>, records: seq<Record>, ids: set<string>, phones: set<string>) {
    && |records| == |rows|
    && forall i :: 0 <= i < |rows| ==>
         && records[i].row == rows[i]
         && records[i].idKey == IdKey(rows[i].id)
         && records[i].phoneKey == CleanPhone(rows[i].phone)
         && records[i].county == CountyKey(rows[i].county)
         && Consistent(records[i])
         && (records[i].matchMethod == ById <==> IdKey(rows[i].id) in ids)
         && (records[i].verified <==> IdKey(rows[i].id) in ids || CleanPhone(rows[i].phone) in phones)
  }

  /** The upper-cased counties of the rows. */
  function RowCounties(rows: seq<ParticipantRow>): set<string> {
    set i | 0 <= i < |rows| :: CountyKey(rows[i].county)
  }

  lemma CountiesOfRows(rows: seq<ParticipantRow>, recs: seq<Record>)
    requires |recs| == |rows|
    requires forall i :: 0 <= i < |rows| ==> recs[i].county == CountyKey(rows[i].county)
    ensures RecordCounties(recs) == RowCounties(rows)
  {
    forall c | c in RecordCounties(recs) ensures c in RowCounties(rows) {
      var r :| r in recs && r.county == c;
      var i :| 0 <= i < |recs| && recs[i] == r;
    }
    forall c | c in RowCounties(rows) ensures c in RecordCounties(recs) {
      var i :| 0 <= i < |rows| && CountyKey(rows[i].county) == c;
      assert recs[i] in recs;
    }
  }

  /** The summary counts the records: how many are verified, unverified,
      matched by ID and matched by phone. */
  predicate Counted(summary: DatasetSummary, records: seq<Record>) {
    && summary.verified == |Positions(records, (r: Record) => r.verified)|
    && summary.notVerified == |Positions(records, (r: Record) => !r.verified)|
    && summary.matchedById == |Positions(records, (r: Record) => r.matchMethod == ById)|
    && summary.matchedByPhone == |Positions(records, (r: Record) => r.matchMethod == ByPhone)|
  }

  /** The county table groups the records by the rows' upper-cased
      counties, in ascending order, each county row holding its records
      with an ID and its verified records. */
  predicate Tabulated(counties: seq<CountyRow>, records: seq<Record>, rows: seq<ParticipantRow>) {
    && Ascending(counties)
    && Counties(counties) == RowCounties(rows)
    && forall i :: 0 <= i < |counties| ==>
         && counties[i].assignedCount == AssignedIn(records, counties[i].county)
         && counties[i].verifiedCount == VerifiedIn(records, counties[i].county)
  }

  /** The log joins every verified record with every complete roster row
      of its pair and holds nothing else; with unique roster pairs, each
      such record gives exactly one row per position it occupies. */
  ghost predicate Logged(log: seq<LogRow>, records: seq<Record>, roster: seq<Entry>) {
    && LogSound(records, roster, log)
    && LogComplete(records, roster, log)
    && (Unique(roster) ==> |log| == |Positions(records, Loggable(roster))|)
    && (Unique(roster) ==> LogCounts(records, roster, log))
  }

  /** What a report of dataset `name` states about its records: they
      carry the ID-then-phone verdicts against the roster's keys, the
      summary counts them, the county table groups them by county, and the
      log joins the verified ones with their complete roster rows. */
  ghost predicate Describes(rep: Report, roster: seq<Entry>, rows: seq<ParticipantRow>, name: string) {
    && rep.summary.dataset == name
    && rep.summary.totalAssigned == |rows|
    && Verdicts(rows, rep.records, IdKeys(roster), PhoneKeys(roster))
    && Counted(rep.summary, rep.records)
    && Tabulated(rep.counties, rep.records, rows)
    && Logged(rep.log, rep.records, roster)
  }

  /** The totals of a report agree with one another: ID + Phone =
      Verified, Verified + Not Verified = Total Assigned, the county table
      sums to Verified and to at most Total Assigned, and only records
      matched by ID are logged. */
  predicate Balanced(rep: Report) {
    && rep.summary.matchedById + rep.summary.matchedByPhone == rep.summary.verified
    && rep.summary.verified + rep.summary.notVerified == rep.summary.totalAssigned
    && SumVerified(rep.counties) == rep.summary.verified
    && SumAssigned(rep.counties) <= rep.summary.totalAssigned
    && forall k :: 0 <= k < |rep.log| ==> rep.log[k].record.matchMethod == ById
  }

  /** `process(df_src, label)` (lines 34-85). */
  function ProcessDataset(roster: seq<Entry>, rows: seq<ParticipantRow>, name: string): (rep: Report)
    ensures Describes(rep, roster, rows, name)
    ensures Balanced(rep)
    ensures Unique(roster) ==> |rep.log| <= rep.summary.verified
  {
    var recs := MatchAll(rows, roster);
    LoggedOnlyById(rows, roster);
    LogAtMostVerified(recs, roster);
    CountiesOfRows(rows, recs);
    Report(Summarize(name, recs), CountyPerformance(recs), Log(recs, roster), recs)
  }

  /** Lines 87-91: both datasets are matched against the same roster, whose
      key sets are those of the raw roster. */
  function Run(rosterRows: seq<RosterRow>, shortTerm: seq<ParticipantRow>, newWorking: seq<ParticipantRow>)
    : (reports: seq<Report>)
    ensures |reports| == 2
    ensures Describes(reports[0], PrepareRoster(rosterRows), shortTerm, "Short Term")
    ensures Describes(reports[1], PrepareRoster(rosterRows), newWorking, "New Working")
    ensures Balanced(reports[0]) && Balanced(reports[1])
    ensures Verdicts(shortTerm, reports[0].records, IdKeys(DeriveAll(rosterRows)), PhoneKeys(DeriveAll(rosterRows)))
    ensures Verdicts(newWorking, reports[1].records, IdKeys(DeriveAll(rosterRows)), PhoneKeys(DeriveAll(rosterRows)))
    ensures |reports[0].log| <= reports[0].summary.verified
    ensures |reports[1].log| <= reports[1].summary.verified
  {
    var roster := PrepareRoster(rosterRows);
    var first := ProcessDataset(roster, shortTerm, "Short Term");
    var second := ProcessDataset(roster, newWorking, "New Working");
    [first, second]
  }
}

=== FILE: roster.dfy ===
/** The verification roster (app.py lines 27-29): each row gets a phone key
    and an identity key, then rows repeating an earlier (identity key,
    phone key) pair are dropped, the first occurrence being kept. */
module Roster {
  import opened Cells
  import opened Keys

  /** One row of the roster spreadsheet, restricted to the columns the
      engine reads. */
  datatype RosterRow = RosterRow(verifiedId: Cell, verifiedPhone: Cell, participantName: Cell)

  /** A roster row with its two derived columns ID_CLEAN and PHONE_CLEAN. */
  datatype Entry = Entry(row: RosterRow, idKey: string, phoneKey: string) {
    function Pair(): (string, string) {
      (idKey, phoneKey)
    }
  }

  /** Lines 27-28. */
  function Derive(row: RosterRow): Entry {
    Entry(row, IdKey(row.verifiedId), CleanPhone(row.verifiedPhone))
  }

  function DeriveAll(rows: seq<RosterRow>): (es: seq<Entry>)
    ensures |es| == |rows|
    ensures forall i :: 0 <= i < |rows| ==> es[i] == Derive(rows[i])
  {
    seq(|rows|, i requires 0 <= i < |rows| => Derive(rows[i]))
  }

  function PairSet(es: seq<Entry>): set<(string, string)> {
    set e | e in es :: e.Pair()
  }

  /** The ID_CLEAN column as a set, the right operand of `isin` on line 45. */
  function IdKeys(es: seq<Entry>): set<string> {
    set e | e in es :: e.idKey
  }

  /** The PHONE_CLEAN column as a set, the right operand of `isin` on line 52. */
  function PhoneKeys(es: seq<Entry>): set<string> {
    set e | e in es :: e.phoneKey
  }

  /** No two rows share an (identity key, phone key) pair. */
  predicate Unique(es: seq<Entry>) {
    forall i, j :: 0 <= i < j < |es| ==> es[i].Pair() != es[j].Pair()
  }

  /** Row `i` is the first row carrying its pair. */
  predicate FirstOf(es: seq<Entry>, i: int)
    requires 0 <= i < |es|
  {
    forall j :: 0 <= j < i ==> es[j].Pair() != es[i].Pair()
  }

  /** The reference meaning of `drop_duplicates(keep="first")`: the rows
      that are the first of their pair, in their original order. */
  function FirstOccurrences(es: seq<Entry>): seq<Entry> {
    if |es| == 0 then []
    else FirstOccurrences(es[..|es| - 1]) + (if FirstOf(es, |es| - 1) then [es[|es| - 1]] else [])
  }

  /** One scan with a set of the pairs already seen, the way pandas hashes
      the subset columns. */
  function Keep(es: seq<Entry>, seen: set<(string, string)>): (kept: seq<Entry>)
    ensures Unique(kept)
    ensures PairSet(kept) == PairSet(es) - seen
    ensures forall e :: e in kept ==> e in es
  {
    if |es| == 0 then []
    else if es[0].Pair() in seen then
      var kept := Keep(es[1..], seen);
      PairSetHead(es);
      kept
    else
      var rest := Keep(es[1..], seen + {es[0].Pair()});
      PairSetHead(es);
      KeepHead(es[0], rest, PairSet(es[1..]) - (seen + {es[0].Pair()}));
      [es[0]] + rest
  }

  lemma PairSetHead(es: seq<Entry>)
    requires |es| > 0
    ensures PairSet(es) == {es[0].Pair()} + PairSet(es[1..])
    ensures forall e :: e in es[1..] ==> e in es
  {
    assert es == [es[0]] + es[1..];
  }

  /** Putting a row in front of unique rows whose pairs avoid its own keeps
      the rows unique. */
  lemma KeepHead(e: Entry, rest: seq<Entry>, pairs: set<(string, string)>)
    requires Unique(rest) && PairSet(rest) == pairs && e.Pair() !in pairs
    ensures Unique([e] + rest)
    ensures PairSet([e] + rest) == {e.Pair()} + pairs
  {
    var out := [e] + rest;
    forall i, j | 0 <= i < j < |out| ensures out[i].Pair() != out[j].Pair() {
      assert out[j] == rest[j - 1];
      assert rest[j - 1] in rest;
      if i > 0 {
        assert out[i] == rest[i - 1];
      }
    }
    assert out[1..] == rest;
    PairSetHead(out);
  }

  /** `drop_duplicates(subset=["ID_CLEAN", "PHONE_CLEAN"])` (line 29). */
  function DropDuplicates(es: seq<Entry>): (kept: seq<Entry>)
    ensures Unique(kept)
    ensures PairSet(kept) == PairSet(es)
    ensures IdKeys(kept) == IdKeys(es)
    ensures PhoneKeys(kept) == PhoneKeys(es)
    ensures forall e :: e in kept ==> e in es
  {
    var kept := Keep(es, {});
    KeysFromPairs(kept);
    KeysFromPairs(es);
    kept
  }

  /** The key sets are projections of the pair set. */
  lemma KeysFromPairs(es: seq<Entry>)
    ensures IdKeys(es) == set p | p in PairSet(es) :: p.0
    ensures PhoneKeys(es) == set p | p in PairSet(es) :: p.1
  {
    forall x | x in IdKeys(es) ensures x in set p | p in PairSet(es) :: p.0 {
      var e :| e in es && e.idKey == x;
      assert e.Pair() in PairSet(es);
    }
    forall x | x in PhoneKeys(es) ensures x in set p | p in PairSet(es) :: p.1 {
      var e :| e in es && e.phoneKey == x;
      assert e.Pair() in PairSet(es);
    }
  }

  lemma FirstOfUnseen(es: seq<Entry>, k: nat)
    requires k < |es|
    ensures FirstOf(es, k) <==> es[k].Pair() !in PairSet(es[..k])
  {
    var p := es[k].Pair();
    if p in PairSet(es[..k]) {
      var e :| e in es[..k] && e.Pair() == p;
      var j :| 0 <= j < k && es[..k][j] == e;
      assert es[j].Pair() == p;
    }
    if !FirstOf(es, k) {
      var j :| 0 <= j < k && es[j].Pair() == p;
      assert es[..k][j] == es[j];
    }
  }

  lemma FirstOccurrencesStep(es: seq<Entry>, k: nat)
    requires k < |es|
    ensures FirstOccurrences(es[..k + 1])
         == FirstOccurrences(es[..k]) + (if FirstOf(es, k) then [es[k]] else [])
  {
    var pre := es[..k + 1];
    assert pre[..k] == es[..k];
    assert FirstOf(pre, k) == FirstOf(es, k);
  }

  lemma PairSetStep(es: seq<Entry>, k: nat)
    requires k < |es|
    ensures PairSet(es[..k + 1]) == PairSet(es[..k]) + {es[k].Pair()}
  {
    assert es[..k + 1] == es[..k] + [es[k]];
  }

  lemma KeepStep(es: seq<Entry>, k: nat, seen: set<(string, string)>)
    requires k < |es|
    ensures Keep(es[k..], seen)
         == if es[k].Pair() in seen then Keep(es[k + 1..], seen)
            else [es[k]] + Keep(es[k + 1..], seen + {es[k].Pair()})
  {
    assert es[k..][1..] == es[k + 1..];
  }

  /** One step of the scan: position `k` is consumed. */
  lemma CompletesStep(es: seq<Entry>, k: nat)
    requires k < |es|
    ensures FirstOccurrences(es[..k]) + Keep(es[k..], PairSet(es[..k]))
         == FirstOccurrences(es[..k + 1]) + Keep(es[k + 1..], PairSet(es[..k + 1]))
  {
    var seen := PairSet(es[..k]);
    var next := Keep(es[k + 1..], PairSet(es[..k + 1]));
    FirstOfUnseen(es, k);
    FirstOccurrencesStep(es, k);
    PairSetStep(es, k);
    KeepStep(es, k, seen);
    if !FirstOf(es, k) {
      assert seen + {es[k].Pair()} == seen;
    }
    assert Keep(es[k..], seen) == (if FirstOf(es, k) then [es[k]] + next else next);
    Regroup(FirstOccurrences(es[..k]), es[k], next, FirstOf(es, k));
  }

  lemma Regroup<T>(a: seq<T>, x: T, b: seq<T>, take: bool)
    ensures a + (if take then [x] + b else b) == (a + if take then [x] else []) + b
  {
  }

  /** Scanning the suffix from position `k` with the pairs of the prefix
      already seen completes the first occurrences of the prefix. */
  lemma {:induction false} KeepCompletes(es: seq<Entry>, k: nat)
    requires k <= |es|
    ensures FirstOccurrences(es[..k]) + Keep(es[k..], PairSet(es[..k])) == FirstOccurrences(es)
    decreases |es| - k
  {
    if k == |es| {
      assert es[..k] == es;
      assert es[k..] == [];
    } else {
      CompletesStep(es, k);
      KeepCompletes(es, k + 1);
    }
  }

  /** `DropDuplicates` keeps exactly the first row of every pair, in input
      order. */
  lemma DropDuplicatesKeepsFirst(es: seq<Entry>)
    ensures DropDuplicates(es) == FirstOccurrences(es)
  {
    KeepCompletes(es, 0);
    assert es[..0] == [];
    assert PairSet(es[..0]) == {};
    assert es[0..] == es;
  }
}

=== FILE: summary.dfy ===
/** The per-dataset summary `process` builds from the matched records
    (lines 78-85), with the record counts it rests on. */
module Summary {
  import opened Matcher

  // ---------------------------------------------------------------------
  // Counting over the records, one record at a time from the end.

  function Last(recs: seq<Record>): Record
    requires |recs| > 0
  {
    recs[|recs| - 1]
  }

  function Init(recs: seq<Record>): seq<Record>
    requires |recs| > 0
  {
    recs[..|recs| - 1]
  }

  /** `df["VERIFIED"].sum()`. */
  function CountVerified(recs: seq<Record>): nat {
    if |recs| == 0 then 0
    else CountVerified(Init(recs)) + (if Last(recs).verified then 1 else 0)
  }

  /** `(~df["VERIFIED"]).sum()`. */
  function CountUnverified(recs: seq<Record>): nat {
    if |recs| == 0 then 0
    else CountUnverified(Init(recs)) + (if Last(recs).verified then 0 else 1)
  }

  /** `(df["MATCH_METHOD"] == name).sum()`. */
  function CountLabel(recs: seq<Record>, name: string): nat {
    if |recs| == 0 then 0
    else CountLabel(Init(recs), name) + (if Last(recs).matchMethod.Label() == name then 1 else 0)
  }

  /** `df["ID"].count()`: the records whose raw identity cell is present. */
  function CountIdPresent(recs: seq<Record>): nat {
    if |recs| == 0 then 0
    else CountIdPresent(Init(recs)) + (if Last(recs).row.id.Some? then 1 else 0)
  }

  lemma {:induction false} VerifiedPlusUnverified(recs: seq<Record>)
    ensures CountVerified(recs) + CountUnverified(recs) == |recs|
  {
    if |recs| > 0 {
      VerifiedPlusUnverified(Init(recs));
    }
  }

  /** Every verified record was verified either by ID or by phone. */
  lemma {:induction false} MethodsPartitionVerified(recs: seq<Record>)
    ensures (forall i :: 0 <= i < |recs| ==> Consistent(recs[i])) ==>
              CountLabel(recs, "ID") + CountLabel(recs, "Phone") == CountVerified(recs)
  {
    if |recs| > 0 {
      MethodsPartitionVerified(Init(recs));
      if forall i :: 0 <= i < |recs| ==> Consistent(recs[i]) {
        assert forall i :: 0 <= i < |recs| - 1 ==> Init(recs)[i] == recs[i];
        assert Consistent(recs[|recs| - 1]);
      }
    }
  }

  lemma {:induction false} IdPresentAtMostAll(recs: seq<Record>)
    ensures CountIdPresent(recs) <= |recs|
  {
    if |recs| > 0 {
      IdPresentAtMostAll(Init(recs));
    }
  }

  /** The positions of the records that satisfy `p`. */
  function Positions(recs: seq<Record>, p: Record -> bool): set<int> {
    set i | 0 <= i < |recs| && p(recs[i])
  }

  /** There is one more position exactly when the last record satisfies
      `p`. */
  lemma PositionsStep(recs: seq<Record>, p: Record -> bool)
    requires |recs| > 0
    ensures |Positions(recs, p)| == |Positions(Init(recs), p)| + (if p(Last(recs)) then 1 else 0)
  {
    var n := |recs| - 1;
    var before := Positions(Init(recs), p);
    assert forall i :: 0 <= i < n ==> Init(recs)[i] == recs[i];
    if p(Last(recs)) {
      assert Positions(recs, p) == before + {n};
    } else {
      assert Positions(recs, p) == before;
    }
  }

  lemma {:induction false} CountVerifiedPositions(recs: seq<Record>)
    ensures CountVerified(recs) == |Positions(recs, (r: Record) => r.verified)|
  {
    if |recs| > 0 {
      CountVerifiedPositions(Init(recs));
      PositionsStep(recs, (r: Record) => r.verified);
    } else {
      assert Positions(recs, (r: Record) => r.verified) == {};
    }
  }

  lemma {:induction false} CountUnverifiedPositions(recs: seq<Record>)
    ensures CountUnverified(recs) == |Positions(recs, (r: Record) => !r.verified)|
  {
    if |recs| > 0 {
      CountUnverifiedPositions(Init(recs));
      PositionsStep(recs, (r: Record) => !r.verified);
    } else {
      assert Positions(recs, (r: Record) => !r.verified) == {};
    }
  }

  lemma {:induction false} CountLabelPositions(recs: seq<Record>, m: MatchMethod)
    ensures CountLabel(recs, m.Label()) == |Positions(recs, (r: Record) => r.matchMethod == m)|
  {
    if |recs| > 0 {
      CountLabelPositions(Init(recs), m);
      PositionsStep(recs, (r: Record) => r.matchMethod == m);
      assert Last(recs).matchMethod.Label() == m.Label() <==> Last(recs).matchMethod == m;
    } else {
      assert Positions(recs, (r: Record) => r.matchMethod == m) == {};
    }
  }

  // ---------------------------------------------------------------------
  // Dataset summary.

  /** The dictionary `process` returns (lines 78-85). */
  datatype DatasetSummary = DatasetSummary(dataset: string, totalAssigned: nat, verified: nat,
                                           matchedById: nat, matchedByPhone: nat, notVerified: nat)

  function Summarize(name: string, recs: seq<Record>): (s: DatasetSummary)
    ensures s.dataset == name
    ensures s.totalAssigned == |recs|
    ensures s.verified == |Positions(recs, (r: Record) => r.verified)|
    ensures s.notVerified == |Positions(recs, (r: Record) => !r.verified)|
    ensures s.matchedById == |Positions(recs, (r: Record) => r.matchMethod == ById)|
    ensures s.matchedByPhone == |Positions(recs, (r: Record) => r.matchMethod == ByPhone)|
    ensures s.verified + s.notVerified == s.totalAssigned
    ensures (forall i :: 0 <= i < |recs| ==> Consistent(recs[i])) ==>
              s.matchedById + s.matchedByPhone == s.verified
  {
    VerifiedPlusUnverified(recs);
    MethodsPartitionVerified(recs);
    CountVerifiedPositions(recs);
    CountUnverifiedPositions(recs);
    CountLabelPositions(recs, ById);
    CountLabelPositions(recs, ByPhone);
    DatasetSummary(name, |recs|, CountVerified(recs), CountLabel(recs, "ID"),
                   CountLabel(recs, "Phone"), CountUnverified(recs))
  }
}

=== FILE: text.dfy ===
/** The string primitives the matching engine relies on, stated the way
    Python defines them: `str.strip()`, `str.replace(c, "")`,
    `str.startswith`, ASCII `str.upper()` and the ordering of `str` values. */
module Text {

  /** Python's `str.isspace`, the set of characters `str.strip()` removes:
      U+0009..U+000D, U+001C..U+001F, U+0020, U+0085, U+00A0, U+1680,
      U+2000..U+200A, U+2028, U+2029, U+202F, U+205F and U+3000. */
  predicate IsSpace(c: char) {
    var n := c as int;
    || 0x09 <= n <= 0x0D
    || 0x1C <= n <= 0x20
    || n == 0x85 || n == 0xA0 || n == 0x1680
    || 0x2000 <= n <= 0x200A
    || n == 0x2028 || n == 0x2029 || n == 0x202F || n == 0x205F || n == 0x3000
  }

  predicate NoSpace(s: string) {
    forall i :: 0 <= i < |s| ==> !IsSpace(s[i])
  }

  /** The end of the whitespace run of `s` that starts at index `i`. */
  function SkipSpace(s: string, i: nat): (k: nat)
    requires i <= |s|
    ensures i <= k <= |s|
    ensures forall j :: i <= j < k ==> IsSpace(s[j])
    ensures k < |s| ==> !IsSpace(s[k])
    decreases |s| - i
  {
    if i < |s| && IsSpace(s[i]) then SkipSpace(s, i + 1) else i
  }

  /** The start of the whitespace run of `s` that ends at index `j`, not
      reaching below `lo`. */
  function BackSpace(s: string, lo: nat, j: nat): (k: nat)
    requires lo <= j <= |s|
    ensures lo <= k <= j
    ensures forall m :: k <= m < j ==> IsSpace(s[m])
    ensures k > lo ==> !IsSpace(s[k - 1])
    decreases j
  {
    if j > lo && IsSpace(s[j - 1]) then BackSpace(s, lo, j - 1) else j
  }

  /** Python's `str.strip()` with no argument: `s` is a whitespace run
      `s[..lead]`, then `r`, then another whitespace run; `r` neither starts
      nor ends with whitespace, so both runs are as long as they can be. */
  function Strip(s: string): (r: string)
    ensures var lead := SkipSpace(s, 0);
            && lead + |r| <= |s| && r == s[lead..lead + |r|]
            && (forall i :: 0 <= i < lead ==> IsSpace(s[i]))
            && (forall i :: lead + |r| <= i < |s| ==> IsSpace(s[i]))
    ensures |r| > 0 ==> !IsSpace(r[0]) && !IsSpace(r[|r| - 1])
  {
    var lead := SkipSpace(s, 0);
    s[lead..BackSpace(s, lead, |s|)]
  }

  /** `Strip` only removes characters. */
  lemma StripKeeps(s: string, x: char)
    requires x in Strip(s)
    ensures x in s
  {
    var r := Strip(s);
    var lead := SkipSpace(s, 0);
    var i :| 0 <= i < |r| && r[i] == x;
    assert s[lead + i] == x;
  }

  /** A string with no whitespace at all is left alone by `Strip`. */
  lemma StripNoSpace(s: string)
    requires NoSpace(s)
    ensures Strip(s) == s
  {
    if |s| > 0 {
      StripFramed(s);
    }
  }

  /** A string that neither starts nor ends with whitespace is left alone
      by `Strip`. */
  lemma StripFramed(s: string)
    requires |s| > 0 && !IsSpace(s[0]) && !IsSpace(s[|s| - 1])
    ensures Strip(s) == s
  {
    assert SkipSpace(s, 0) == 0;
    assert BackSpace(s, 0, |s|) == |s|;
  }

  lemma NoSpaceNoBlank(s: string)
    requires NoSpace(s)
    ensures ' ' !in s
  {
  }

  /** `r` is `s` with every character of `del` deleted and every other
      character kept, in order. */
  predicate Deleted(s: string, del: set<char>, r: string)
    decreases |s|
  {
    if |s| == 0 then r == []
    else if s[0] in del then Deleted(s[1..], del, r)
    else |r| > 0 && r[0] == s[0] && Deleted(s[1..], del, r[1..])
  }

  /** Python's `s.replace(c, "")`. */
  function Remove(s: string, c: char): (r: string)
    ensures Deleted(s, {c}, r)
    ensures forall x :: x in r <==> x in s && x != c
    ensures |r| <= |s|
  {
    if |s| == 0 then ""
    else
      var rest := Remove(s[1..], c);
      assert forall x :: x in s <==> x == s[0] || x in s[1..];
      var r := (if s[0] == c then "" else [s[0]]) + rest;
      assert s[0] == c ==> r == rest;
      assert s[0] != c ==> r[1..] == rest;
      r
  }

  /** Deleting from a concatenation deletes from each part. */
  lemma {:induction false} RemoveAppend(s: string, t: string, c: char)
    ensures Remove(s + t, c) == Remove(s, c) + Remove(t, c)
  {
    if |s| > 0 {
      RemoveAppend(s[1..], t, c);
      assert (s + t)[1..] == s[1..] + t;
      assert (s + t)[0] == s[0];
    } else {
      assert s + t == t;
    }
  }

  /** Deleting from a single character. */
  lemma RemoveSingle(x: char, c: char)
    ensures Remove([x], c) == if x == c then [] else [x]
  {
    assert [x][1..] == [];
  }

  /** Deleting the one occurrence of `c` between two `c`-free strings
      joins them. */
  lemma {:induction false} RemoveBetween(a: string, c: char, b: string)
    requires c !in a && c !in b
    ensures Remove(a + [c] + b, c) == a + b
  {
    var s := a + [c] + b;
    if |a| == 0 {
      assert s == [c] + b && s[1..] == b;
      RemoveAbsent(b, c);
    } else {
      assert s[0] == a[0] && s[1..] == a[1..] + [c] + b;
      RemoveBetween(a[1..], c, b);
      assert a + b == [a[0]] + (a[1..] + b);
    }
  }

  /** Deleting one set of characters and then another deletes their union. */
  lemma {:induction false} DeletedTwice(s: string, a: char, m: string, b: char, q: string)
    requires Deleted(s, {a}, m) && Deleted(m, {b}, q)
    ensures Deleted(s, {a, b}, q)
    decreases |s|
  {
    if |s| > 0 {
      if s[0] == a {
        DeletedTwice(s[1..], a, m, b, q);
      } else if m[0] == b {
        DeletedTwice(s[1..], a, m[1..], b, q);
      } else {
        DeletedTwice(s[1..], a, m[1..], b, q[1..]);
      }
    }
  }

  /** Deleting a character that does not occur changes nothing. */
  lemma {:induction false} RemoveAbsent(s: string, c: char)
    requires c !in s
    ensures Remove(s, c) == s
  {
    if |s| > 0 {
      assert s[0] != c;
      RemoveAbsent(s[1..], c);
      assert Remove(s, c) == [s[0]] + Remove(s[1..], c);
      assert s == [s[0]] + s[1..];
    }
  }

  /** Python's `str.startswith`. */
  predicate StartsWith(s: string, prefix: string) {
    |prefix| <= |s| && s[..|prefix|] == prefix
  }

  predicate IsLower(c: char) {
    'a' <= c <= 'z'
  }

  function UpperChar(c: char): (u: char)
    ensures !IsLower(u)
  {
    if IsLower(c) then (c as int - 32) as char else c
  }

  /** `str.upper()` restricted to the ASCII letters. */
  function Upper(s: string): (r: string)
    ensures |r| == |s|
    ensures forall i :: 0 <= i < |r| ==> !IsLower(r[i])
    ensures forall i :: 0 <= i < |s| && !IsLower(s[i]) ==> r[i] == s[i]
    ensures forall i :: 0 <= i < |s| && IsLower(s[i]) ==> r[i] as int == s[i] as int - 32
  {
    seq(|s|, i requires 0 <= i < |s| => UpperChar(s[i]))
  }

  /** The order of Python `str` values: lexicographic by code point, a
      proper prefix sorting first. */
  predicate Less(a: string, b: string) {
    if |a| == 0 then |b| > 0
    else if |b| == 0 then false
    else if a[0] != b[0] then a[0] < b[0]
    else Less(a[1..], b[1..])
  }

  lemma LessIrreflexive(a: string)
    ensures !Less(a, a)
  {
    if |a| > 0 {
      LessIrreflexive(a[1..]);
    }
  }

  lemma LessTransitive(a: string, b: string, c: string)
    requires Less(a, b) && Less(b, c)
    ensures Less(a, c)
  {
    if |a| > 0 && |b| > 0 && |c| > 0 && a[0] == b[0] && b[0] == c[0] {
      LessTransitive(a[1..], b[1..], c[1..]);
    }
  }

  lemma LessTotal(a: string, b: string)
    ensures a == b || Less(a, b) || Less(b, a)
  {
    if |a| > 0 && |b| > 0 && a[0] == b[0] {
      LessTotal(a[1..], b[1..]);
      if a[1..] == b[1..] {
        assert a == [a[0]] + a[1..] && b == [b[0]] + b[1..];
      }
    }
  }

  lemma LessAsymmetric(a: string, b: string)
    requires Less(a, b)
    ensures !Less(b, a)
  {
    if |a| > 0 && |b| > 0 && a[0] == b[0] {
      LessAsymmetric(a[1..], b[1..]);
    }
  }
}

=== FILE: verified_log.dfy ===
/** The verified log of app.py lines 57-68: the verified records are
    left-merged with the deduplicated roster on BOTH keys, then rows
    missing the roster's participant name, identity number or phone number
    are dropped. A left-merge row without a roster counterpart has those
    cells missing, so it is dropped too. */
module VerifiedLog {
  import opened Cells
  import opened Roster
  import opened Matcher
  import opened Summary

  /** A log row: the participant record with the roster columns joined on. */
  datatype LogRow = LogRow(record: Record, entry: RosterRow)

  /** Survives the `dropna` of line 66. */
  predicate Complete(row: RosterRow) {
    row.participantName.Some? && row.verifiedId.Some? && row.verifiedPhone.Some?
  }

  /** Roster entry `e` is what the merge joins `rec` with, and the joined
      row survives the `dropna`. */
  predicate Partner(rec: Record, e: Entry) {
    e.Pair() == rec.Pair() && Complete(e.row)
  }

  /** Some roster entry is a partner of `rec`. */
  predicate HasPartner(rec: Record, roster: seq<Entry>) {
    exists e :: e in roster && Partner(rec, e)
  }

  /** The records that reach the log: verified, with a partner. */
  function Loggable(roster: seq<Entry>): Record -> bool {
    (r: Record) => r.verified && HasPartner(r, roster)
  }

  /** The records that produce log row `x`: verified, equal to its
      record, with a partner whose roster row is its roster row. */
  function Makes(x: LogRow, roster: seq<Entry>): Record -> bool {
    (r: Record) => r.verified && r == x.record && exists e :: e in roster && Partner(r, e) && e.row == x.entry
  }

  /** Each row occurs in `log` once for every position of `recs` whose
      record produces it. */
  ghost predicate LogCounts(recs: seq<Record>, roster: seq<Entry>, log: seq<LogRow>) {
    forall x :: multiset(log)[x] == |Positions(recs, Makes(x, roster))|
  }

  /** Every row of `out` is `rec` joined with a complete roster row of its
      own pair. */
  predicate JoinSound(rec: Record, roster: seq<Entry>, out: seq<LogRow>) {
    forall k :: 0 <= k < |out| ==>
      out[k].record == rec && exists e :: e in roster && Partner(rec, e) && e.row == out[k].entry
  }

  /** Every complete roster row of the pair of `rec` is joined in `out`. */
  predicate JoinCovers(rec: Record, roster: seq<Entry>, out: seq<LogRow>) {
    forall e :: e in roster && Partner(rec, e) ==> LogRow(rec, e.row) in out
  }

  /** The surviving merge rows of one verified record, in roster order. */
  function Joined(rec: Record, roster: seq<Entry>): (out: seq<LogRow>)
    ensures JoinSound(rec, roster, out)
    ensures JoinCovers(rec, roster, out)
  {
    if |roster| == 0 then []
    else
      var rest := Joined(rec, roster[1..]);
      JoinStep(rec, roster, rest);
      JoinHead(rec, roster[0]) + rest
  }

  /** The merge row `rec` forms with one roster entry, if it survives. */
  function JoinHead(rec: Record, e: Entry): seq<LogRow> {
    if Partner(rec, e) then [LogRow(rec, e.row)] else []
  }

  /** One step of `Joined`: rows for the tail of the roster extend to rows
      for the whole roster. */
  lemma JoinStep(rec: Record, roster: seq<Entry>, rest: seq<LogRow>)
    requires |roster| > 0
    requires JoinSound(rec, roster[1..], rest) && JoinCovers(rec, roster[1..], rest)
    ensures JoinSound(rec, roster, JoinHead(rec, roster[0]) + rest)
    ensures JoinCovers(rec, roster, JoinHead(rec, roster[0]) + rest)
  {
    var head := JoinHead(rec, roster[0]);
    var out := head + rest;
    assert roster[0] in roster;
    assert forall e :: e in roster <==> e == roster[0] || e in roster[1..];
    forall k | 0 <= k < |out|
      ensures out[k].record == rec && exists e :: e in roster && Partner(rec, e) && e.row == out[k].entry
    {
      if k >= |head| {
        assert out[k] == rest[k - |head|];
      }
    }
  }

  lemma {:induction false} NoPartnerNoRows(rec: Record, roster: seq<Entry>)
    requires forall e :: e in roster ==> !Partner(rec, e)
    ensures Joined(rec, roster) == []
  {
    if |roster| > 0 {
      assert roster[0] in roster;
      NoPartnerNoRows(rec, roster[1..]);
    }
  }

  /** With the pairs unique, as line 29 makes them, a record joins at most
      one roster row. */
  lemma {:induction false} JoinedAtMostOne(rec: Record, roster: seq<Entry>)
    requires Unique(roster)
    ensures |Joined(rec, roster)| <= 1
  {
    if |roster| > 0 {
      var rest := Joined(rec, roster[1..]);
      if Partner(rec, roster[0]) {
        forall e | e in roster[1..] ensures !Partner(rec, e) {
          var j :| 0 <= j < |roster[1..]| && roster[1..][j] == e;
          assert roster[j + 1] == e;
        }
        NoPartnerNoRows(rec, roster[1..]);
      }
      assert Unique(roster[1..]) by {
        forall i, j | 0 <= i < j < |roster[1..]| ensures roster[1..][i].Pair() != roster[1..][j].Pair() {
          assert roster[1..][i] == roster[i + 1] && roster[1..][j] == roster[j + 1];
        }
      }
      JoinedAtMostOne(rec, roster[1..]);
    }
  }

  /** Every row of `log` is a verified record of `recs` joined with a
      complete roster row of its own pair. */
  predicate LogSound(recs: seq<Record>, roster: seq<Entry>, log: seq<LogRow>) {
    forall k :: 0 <= k < |log| ==>
      && log[k].record in recs
      && log[k].record.verified
      && exists e :: e in roster && Partner(log[k].record, e) && e.row == log[k].entry
  }

  /** Every verified record of `recs` appears in `log` with every complete
      roster row of its pair. */
  predicate LogComplete(recs: seq<Record>, roster: seq<Entry>, log: seq<LogRow>) {
    forall i, e :: 0 <= i < |recs| && recs[i].verified && e in roster && Partner(recs[i], e) ==>
      LogRow(recs[i], e.row) in log
  }

  /** Lines 58-66: the log of one dataset. With the roster pairs unique,
      as line 29 makes them, each verified record with a partner appears
      exactly once. */
  function Log(recs: seq<Record>, roster: seq<Entry>): (log: seq<LogRow>)
    ensures LogSound(recs, roster, log)
    ensures LogComplete(recs, roster, log)
    ensures Unique(roster) ==> |log| == |Positions(recs, Loggable(roster))|
    ensures Unique(roster) ==> LogCounts(recs, roster, log)
  {
    if |recs| == 0 then
      assert Positions(recs, Loggable(roster)) == {};
      assert forall x :: Positions(recs, Makes(x, roster)) == {};
      []
    else
      var before := Log(Init(recs), roster);
      var added := Added(recs, roster);
      LogStep(recs, roster, before, added);
      CountsStep(recs, roster, before);
      before + added
  }

  /** The surviving merge rows of the last record: none unless it is
      verified. */
  function Added(recs: seq<Record>, roster: seq<Entry>): seq<LogRow>
    requires |recs| > 0
  {
    if Last(recs).verified then Joined(Last(recs), roster) else []
  }

  /** With unique pairs a record joins one roster row if it has a partner
      and none otherwise. */
  lemma JoinedCount(rec: Record, roster: seq<Entry>)
    ensures Unique(roster) ==> |Joined(rec, roster)| == if HasPartner(rec, roster) then 1 else 0
  {
    if Unique(roster) {
      JoinedAtMostOne(rec, roster);
      if HasPartner(rec, roster) {
        var e :| e in roster && Partner(rec, e);
        assert LogRow(rec, e.row) in Joined(rec, roster);
      } else {
        NoPartnerNoRows(rec, roster);
      }
    }
  }

  /** With unique pairs a verified record joins each row it produces
      exactly once, and no other row. */
  lemma JoinedMultiset(rec: Record, roster: seq<Entry>)
    requires rec.verified
    ensures Unique(roster) ==>
      forall x :: multiset(Joined(rec, roster))[x] == if Makes(x, roster)(rec) then 1 else 0
  {
    if Unique(roster) {
      var out := Joined(rec, roster);
      JoinedAtMostOne(rec, roster);
      forall x ensures multiset(out)[x] == if Makes(x, roster)(rec) then 1 else 0 {
        OccursOnce(rec, roster, out, x);
      }
    }
  }

  /** A join result of at most one row holds row `x` once when `rec`
      produces it, and not at all otherwise. */
  lemma OccursOnce(rec: Record, roster: seq<Entry>, out: seq<LogRow>, x: LogRow)
    requires rec.verified && |out| <= 1
    requires JoinSound(rec, roster, out) && JoinCovers(rec, roster, out)
    ensures multiset(out)[x] == if Makes(x, roster)(rec) then 1 else 0
  {
    if Makes(x, roster)(rec) {
      var e :| e in roster && Partner(rec, e) && e.row == x.entry;
      assert x == LogRow(rec, e.row);
      assert x in out;
      assert out == [x];
    } else if |out| == 1 {
      assert out == [out[0]];
    }
  }

  /** One step of the counting clauses of `Log`: the rows of the last
      record extend the counts for the others. */
  lemma CountsStep(recs: seq<Record>, roster: seq<Entry>, before: seq<LogRow>)
    requires |recs| > 0
    requires Unique(roster) ==> |before| == |Positions(Init(recs), Loggable(roster))|
    requires Unique(roster) ==> LogCounts(Init(recs), roster, before)
    ensures Unique(roster) ==> |before + Added(recs, roster)| == |Positions(recs, Loggable(roster))|
    ensures Unique(roster) ==> LogCounts(recs, roster, before + Added(recs, roster))
  {
    if Unique(roster) {
      var added := Added(recs, roster);
      PositionsStep(recs, Loggable(roster));
      if Last(recs).verified {
        JoinedCount(Last(recs), roster);
        JoinedMultiset(Last(recs), roster);
      }
      assert forall x :: multiset(added)[x] == if Makes(x, roster)(Last(recs)) then 1 else 0;
      forall x ensures multiset(before + added)[x] == |Positions(recs, Makes(x, roster))| {
        PositionsStep(recs, Makes(x, roster));
      }
    }
  }

  /** One step of `Log`: the rows of the last record extend the log of the
      others. */
  lemma LogStep(recs: seq<Record>, roster: seq<Entry>, before: seq<LogRow>, added: seq<LogRow>)
    requires |recs| > 0
    requires LogSound(Init(recs), roster, before) && LogComplete(Init(recs), roster, before)
    requires !Last(recs).verified ==> added == []
    requires JoinSound(Last(recs), roster, added)
    requires Last(recs).verified ==> JoinCovers(Last(recs), roster, added)
    ensures LogSound(recs, roster, before + added)
    ensures LogComplete(recs, roster, before + added)
  {
    var log := before + added;
    var n := |recs| - 1;
    assert recs == Init(recs) + [Last(recs)];
    assert forall x :: x in Init(recs) ==> x in recs;
    forall k | 0 <= k < |log|
      ensures && log[k].record in recs
              && log[k].record.verified
              && exists e :: e in roster && Partner(log[k].record, e) && e.row == log[k].entry
    {
      if k < |before| {
        assert log[k] == before[k];
      } else {
        assert log[k] == added[k - |before|];
      }
    }
    forall i, e | 0 <= i < |recs| && recs[i].verified && e in roster && Partner(recs[i], e)
      ensures LogRow(recs[i], e.row) in log
    {
      if i < n {
        assert recs[i] == Init(recs)[i];
      }
    }
  }

  /** Each record contributes at most one log row, so the log is never
      longer than the count of verified records. */
  lemma {:induction false} LogAtMostVerified(recs: seq<Record>, roster: seq<Entry>)
    ensures Unique(roster) ==> |Log(recs, roster)| <= CountVerified(recs)
  {
    if |recs| > 0 && Unique(roster) {
      LogAtMostVerified(Init(recs), roster);
      JoinedAtMostOne(Last(recs), roster);
    }
  }

  /** A record matched by phone has an identity key absent from the
      roster, so no roster row carries its pair: it never reaches the log.
      Every logged record was matched by ID. */
  lemma LoggedOnlyById(rows: seq<ParticipantRow>, roster: seq<Entry>)
    ensures forall k :: 0 <= k < |Log(MatchAll(rows, roster), roster)| ==>
      Log(MatchAll(rows, roster), roster)[k].record.matchMethod == ById
  {
    var recs := MatchAll(rows, roster);
    var log := Log(recs, roster);
    forall k | 0 <= k < |log| ensures log[k].record.matchMethod == ById {
      var rec := log[k].record;
      var e :| e in roster && Partner(rec, e) && e.row == log[k].entry;
      assert rec.idKey in IdKeys(roster);
      var i :| 0 <= i < |recs| && recs[i] == rec;
    }
  }

  /** The join drops verified records: a record verified by ID whose phone
      key differs from that of every roster row with its identity key does
      not appear in the log. */
  lemma IdMatchOnOtherPhoneDropped(recs: seq<Record>, roster: seq<Entry>, i: nat)
    requires i < |recs| && recs[i].verified
    requires forall e :: e in roster && e.idKey == recs[i].idKey ==> e.phoneKey != recs[i].phoneKey
    ensures forall k :: 0 <= k < |Log(recs, roster)| ==> Log(recs, roster)[k].record != recs[i]
  {
  }
}
